=== FILE: README.md ===
# RAG ingestion and in-memory vector store: a Dafny model

This project models the core of a small retrieval-augmented question-answering
service. The core has three parts:

- **The in-memory vector store** (`SimpleVectorStore`). It keeps two parallel,
  append-only lists: documents and their embedding vectors. `add_documents`
  embeds a batch and appends it. The retriever built by `as_retriever` scores
  every stored vector against the query. It then sorts the `(score, index)`
  pairs with Python's stable sort in descending order and keeps the first `k`.
  A module-level singleton (`get_vectorstore`) holds the one store of the process.
- **The ingestion pipeline** (`ingest_documents`, `_load_file`,
  `_load_directory`). It checks that the path exists and dispatches a file on
  its lower-cased suffix. A directory is loaded by three glob patterns, and
  entries whose load raises are skipped. When nothing was loaded it returns 0.
  Otherwise it splits the documents into chunks and fills in a missing
  `source` tag. The chunks go to the store, and their number is returned.
- **Context formatting** (`_format_docs`) and the step of `ask_rag` that
  retrieves the top `retrieve_top_k` documents and joins their contents with
  `"\n\n---\n\n"`.

The model is functional. The store is a datatype of two sequences, and the
singleton is a `Slot` that each operation takes in and hands back.
Collaborators the core only calls are passed in as functions:

- the embedding model (`EmbedDocuments`, `EmbedQuery`), which may fail;
- the similarity score (`Similarity`), standing for the cosine computation;
- the PDF and text loaders (`Loaders`), which may fail;
- the text splitter (`Splitter`);
- the filesystem (`FileSystem`): what `exists`/`is_file` report for a path,
  and a directory's entries in iteration order.

Exceptions are `Err` values of an `Error` datatype. `AddDocuments` returns the
store after the call together with an `Outcome`, so "a failed add leaves the
store unchanged" is a stated property.

Files:

- `outcomes.dfy`: `Error`, `Result`, `Outcome`, `Option`.
- `documents.dfy`: documents, metadata values and Python truthiness.
- `ranking.dfy`: the stable descending sort, the `[:k]` slice and the top-k lemmas.
- `vectorstore.dfy`: the store, `add_documents`, the retriever and the singleton.
- `paths.dfy`: `rfind`, `PurePath.name`, `PurePath.suffix`, ASCII `lower`, path joining.
- `ingest.dfy`: file dispatch, directory loading, source tagging and `ingest_documents`.
- `rag.dfy`: `_format_docs` and the context step of `ask_rag`.
- `scenarios.dfy`: concrete cases (the tie-breaking example, suffix dispatch, directory visit order).

Behaviour worth knowing:

- `add_documents` performs no dimension check. It extends both lists with
  whatever the embedder returned, so the model has no dimension-mismatch error.
  The parallel-lists invariant holds as long as the embedder returns one
  vector per text (`OneVectorPerText`). When it does not hold, the retriever
  can raise `IndexError`, and the model keeps that path (`IndexOutOfRange`).
- Ties in score are broken by insertion order. This is a consequence of the
  stability of Python's sort, which `reverse=True` keeps.
- `_load_file` accepts `.text`, but the directory patterns are only `*.pdf`,
  `*.txt` and `*.md`. So a directory of `.text` files ingests nothing. On POSIX
  the glob is case-sensitive, so `X.PDF` in a directory is not visited,
  although `_load_file` would accept it.
- An entry named exactly `.md` (or `.pdf`, `.txt`) matches its glob but has no
  suffix. Its `ValueError` is skipped like any other load failure.
- On the early return of 0, `ingest_documents` has not yet called
  `get_vectorstore`, so an unset singleton stays unset.

## Model

| member | source | states |
|---|---|---|
| `VectorStore.AddDocuments` | app/vectorstore.py:21-27 | An empty batch leaves the store unchanged for every embedder, so the embedder is not consulted. The call fails exactly when the batch is non-empty and the embedder raises, and then the store is unchanged. On success the documents and vectors are appended at the end in input order. The store only grows by appending, and the parallel-lists invariant is kept when the embedder returns one vector per text. |
| `VectorStore.Scores` | app/vectorstore.py:39-44 | There is one score per stored vector, in insertion order: entry `i` is the similarity of the query to vector `i`. |
| `VectorStore.Retrieve` | app/vectorstore.py:33-47 | An empty `_docs` yields `[]` whatever the query embedder would do. Otherwise a failing query embedding is propagated. |
| `VectorStore.RetrieveRanked` | app/vectorstore.py:39-47 | On a store that keeps its invariant, retrieval succeeds once the query is embedded. It returns the documents at the top-k ranked indices, in rank order. |
| `VectorStore.RetrieveTopK` | app/vectorstore.py:39-47 | For `k >= 0` the result has `min(k, n)` documents from distinct entries. They come in non-increasing score order, with equal scores by lower insertion index. No entry left out scores above an entry kept. |
| `VectorStore.RetrieveNegativeK` | app/vectorstore.py:46 | A negative `k` keeps all but the last `-k` ranked documents, and nothing once `-k >= n`. |
| `VectorStore.GetVectorstore` | app/vectorstore.py:55-60 | The first call creates and records an empty store. Later calls return the recorded store. |
| `VectorStore.GetVectorstoreStable` | app/vectorstore.py:55-60 | After the first call, further calls return the same store and leave the singleton as it is. |
| `Ranking.InsertPermutes` | app/vectorstore.py:45 | One insertion step of the sort adds exactly the inserted pair to the multiset of pairs. |
| `Ranking.SortDescending` | app/vectorstore.py:45 | The function has no contract of its own. It is specified by `Ranking.SortPermutes` (a permutation), `Ranking.SortNonIncreasing` and `Ranking.SortRanked` (descending order, ties by lower index) and `Ranking.SortStable` (equal scores keep input order). |
| `Ranking.SortPermutes` | app/vectorstore.py:45 | The sort is a permutation of the scored pairs. |
| `Ranking.SortNonIncreasing` | app/vectorstore.py:45 | The sorted pairs have non-increasing scores. |
| `Ranking.SortRanked` | app/vectorstore.py:40-45 | Pairs emitted in index order come out with higher scores first, and equal scores by lower index. |
| `Ranking.SortStable` | app/vectorstore.py:45 | For every score value, the pairs carrying it keep their input order through the sort. |
| `Ranking.SliceTo` | app/vectorstore.py:46 | `s[:k]` is a prefix of `s` of length `min(k, n)` for `k >= 0`. For negative `k` it is `n + k` long, and empty once `-k >= n`. |
| `Ranking.TopIndices` | app/vectorstore.py:45-46 | The function has no contract of its own. It is specified by `Ranking.TopIndicesLength`, `Ranking.TopIndicesOrdered` and `Ranking.TopIndicesSelection` (how many are kept, their order, and that nothing left out outranks them). |
| `Ranking.TopIndicesLength` | app/vectorstore.py:45-46 | The kept indices number `min(k, n)` for `k >= 0`, and `max(0, n + k)` for negative `k`. |
| `Ranking.TopIndicesOrdered` | app/vectorstore.py:40-46 | The kept indices are valid and pairwise distinct. Each one outranks every later one: a higher score, or an equal score and a lower index. |
| `Ranking.TopIndicesSelection` | app/vectorstore.py:39-46 | Every index left out is outranked by every index kept. |
| `Ranking.TopIndicesComplete` | app/vectorstore.py:46 | With `k >= n` every stored index is returned. |
| `Paths.RFind` | app/ingest.py:20 | `rfind` returns the position of the last occurrence of the character, or -1 when there is none. |
| `Paths.Name` | app/ingest.py:20 | The name is a slash-free tail of the path. `Paths.NameIsFinalComponent` adds that it is the whole final component: either the whole path, or a `/` stands right before it. |
| `Paths.NameIsFinalComponent` | app/ingest.py:20 | When the name is shorter than the path, the character right before it is `/`. |
| `Paths.Lower` | app/ingest.py:20 | Lower-casing keeps the length. `Paths.LowerChars` states the rest. |
| `Paths.LowerChars` | app/ingest.py:20 | Exactly the ASCII capitals become their small letters, 32 code points up. Every other character is kept. |
| `Paths.Suffix` | app/ingest.py:20 | The suffix is empty, or it is a dot followed by dot-free text that ends the name. It is non-empty exactly when the name has a dot after its first character and does not end in a dot. |
| `Paths.NameOfJoin` | app/ingest.py:34 | A path built from a directory and an entry name has that entry name as its final component. |
| `Paths.Join` | app/ingest.py:34 | The function has no contract of its own. `Paths.JoinShape` and `Paths.NameOfJoin` state what it builds. |
| `Paths.JoinShape` | app/ingest.py:34 | A joined path starts with the directory and ends with a `/` followed by the name. |
| `Paths.SuffixOfExtension` | app/ingest.py:20 | A name longer than an extension it ends in has that extension as its suffix. |
| `Ingest.LoadFile` | app/ingest.py:20-27 | `.pdf` goes to the PDF loader, and `.txt`, `.text` and `.md` go to the text loader, with the suffix compared after lower-casing. Any other suffix gives `UnsupportedFileType` carrying that suffix. |
| `Ingest.FileSuffix` | app/ingest.py:20 | The function has no contract of its own. It is specified by `Paths.Suffix`, `Paths.Name` and `Paths.LowerChars` through `Ingest.FileSuffixOfJoin`: an entry ending in an extension is dispatched on that extension, lower-cased. |
| `Ingest.FileSuffixOfJoin` | app/ingest.py:20-21 | A file inside any directory whose name is longer than a dot-led, dot-free extension it ends in is dispatched on that extension, lower-cased. |
| `Ingest.Matching` | app/ingest.py:33-34 | The function has no contract of its own. It is specified by `Ingest.MatchingMembers` (which entries are kept) and `Ingest.MatchingAppend` (in listing order). |
| `Ingest.MatchingAppend` | app/ingest.py:33-34 | Within one pattern, entries are visited in directory-listing order: the glob over two runs of entries is the glob over the first, then the glob over the second. |
| `Ingest.Candidates` | app/ingest.py:33-34 | The function has no contract of its own. `Ingest.LoadDirectoryByPattern` states its pattern order. |
| `Ingest.LoadDirectory` | app/ingest.py:30-39 | The function has no contract of its own. It is specified by `Ingest.LoadDirectoryByPattern`, `Ingest.LoadEachAppend`, `Ingest.LoadEachAt` and `Ingest.SkipFailedLoad`. |
| `Ingest.LoadDirectoryByPattern` | app/ingest.py:30-39 | A directory is loaded pattern by pattern: every `*.pdf` match, then `*.txt`, then `*.md`. |
| `Ingest.MatchingMembers` | app/ingest.py:33-34 | A glob yields a path exactly when it joins the directory with an entry whose name ends in the pattern's extension. |
| `Ingest.LoadEachAppend` | app/ingest.py:32-39 | For any per-path step, loading two path lists one after the other concatenates their documents. |
| `Ingest.Loaded` | app/ingest.py:35-38 | The function has no contract of its own. `Ingest.SkipFailedLoad` states that a path whose load raises contributes nothing. |
| `Ingest.LoadEach` | app/ingest.py:32-39 | The function has no contract of its own. It is specified by `Ingest.LoadEachAppend`, `Ingest.LoadEachAt` and `Ingest.LoadEachWithout`. |
| `Ingest.LoadEachWithout` | app/ingest.py:35-38 | A path that contributes nothing drops out of the accumulated documents, and the others keep their order. |
| `Ingest.LoadEachAt` | app/ingest.py:32-39 | The documents of the `i`-th visited path appear in load order, after those of earlier paths and before those of later ones. |
| `Ingest.SkipFailedLoad` | app/ingest.py:35-38 | A path whose load raises contributes nothing, and every other path is still loaded. |
| `Ingest.CandidateDispatch` | app/ingest.py:20-39 | A globbed entry longer than its extension reaches the loader for that extension: the PDF loader for `.pdf`, the text loader for `.txt` and `.md`. |
| `Ingest.BareExtensionSkipped` | app/ingest.py:20-38 | An entry named just `.pdf`, `.txt` or `.md` has no suffix. Loading it raises `UnsupportedFileType("")`, and the directory loop skips it. |
| `Ingest.TextExtensionNotGlobbed` | app/ingest.py:24-34 | A directory whose entries all end in `.text` loads nothing, though `_load_file` accepts `.text`. |
| `Ingest.RawDocuments` | app/ingest.py:63-66 | A single file raises exactly when `_load_file` raises on it, and with the same error. A directory load never raises. |
| `Ingest.TagSources` | app/ingest.py:73-75 | Tagging keeps the number, order and text of the chunks, and every metadata key other than `source`. A chunk with a truthy `source` is unchanged. Any other chunk gets `source = str(path)`. With a non-empty path every chunk ends up with a truthy `source`. |
| `Ingest.StoreChunks` | app/ingest.py:77-80 | The singleton is set afterwards. A failed add leaves the store unchanged. A successful add appends exactly the chunks and answers their number. The parallel-lists invariant is kept when the embedder returns one vector per text. The call fails exactly when there are chunks and embedding them fails. |
| `Ingest.IngestDocuments` | app/ingest.py:54-80 | A missing path raises `FileNotFound` and leaves the singleton untouched. The store only grows. An error leaves it unchanged. A returned count equals the number of documents added. For an embedder that always returns one vector per text, the parallel-lists invariant is kept, so it holds from the empty store on through every ingestion. |
| `Ingest.IngestLoaded` | app/ingest.py:68-80 | Nothing loaded gives 0 and leaves the slot as it was, without creating the store. Otherwise the store is fetched and only grows. An error leaves it unchanged, a count equals the growth, and the parallel-lists invariant is kept for an embedder that returns one vector per text. With something loaded, the call fails exactly when the splitter yields chunks and embedding their contents fails. |
| `Ingest.IngestFileLoadFails` | app/ingest.py:63-64 | A single file whose load raises (an unsupported suffix, or a failing loader) is not skipped: the whole call returns that error and changes nothing. |
| `Ingest.IngestNothingLoaded` | app/ingest.py:68-69 | When nothing is loaded the answer is 0 and the singleton is untouched, whatever the splitter and embedder are. |
| `Ingest.IngestAfterLoading` | app/ingest.py:59-69 | On a path that exists and loads, ingestion continues with exactly the loaded documents. |
| `Ingest.IngestAppendsChunks` | app/ingest.py:68-80 | A successful ingestion of non-empty loaded documents appends the tagged chunks in splitter order and returns their number. With a non-empty path every appended chunk has a truthy `source`. |
| `Ingest.IngestTextOnlyDirectory` | app/ingest.py:63-69 | A directory holding only `.text` files ingests 0 chunks and changes nothing. |
| `Rag.FormatDocs` | app/rag.py:29-30 | No documents give the empty string, and one document gives exactly its page content. |
| `Rag.JoinWithSeparator` | app/rag.py:30 | The function has no contract of its own. It is specified by `Rag.JoinLength` and `Rag.JoinLayout`. |
| `Rag.JoinLength` | app/rag.py:30 | Joining `n >= 1` parts gives their total length plus 7 characters per separator, `7 * (n - 1)`. |
| `Rag.FormatDocsLength` | app/rag.py:29-30 | The context for `n >= 1` documents is the sum of their content lengths plus `7 * (n - 1)`. |
| `Rag.JoinLayout` | app/rag.py:30 | For every `i`, the `i`-th part occupies the joined text at its offset. A separator follows every part but the last, and the last part ends the text. |
| `Rag.FormatDocsLayout` | app/rag.py:29-30 | Each document's content appears in the context at its offset, in input order. The separator follows every document but the last, and the last one ends the context. |
| `Rag.AskContext` | app/rag.py:35-39 | Asking records the singleton store. An empty store gives the empty context. |
| `Rag.RetrieverK` | app/vectorstore.py:31 | An explicit `k` in the search arguments wins. Without one, or without search arguments, the setting is used. |
| `Rag.AskContextIsRetrieval` | app/rag.py:35-39 | On a store that keeps its invariant, the context is the join of the top-`retrieve_top_k` documents' contents, in retrieval order. |
| `Rag.AskContextRepeatable` | app/rag.py:35-39 | Asking changes no stored entry, so asking again gives the same context. |
| `Scenarios.TieBrokenByInsertionOrder` | app/vectorstore.py:40-47 | With scores 0.9, 0.4, 0.9 and `k = 2`, the result is positions 0 then 2. |
| `Scenarios.UpperCasePdfDispatch` | app/ingest.py:20-23 | `REPORT.PDF` is dispatched to the PDF loader. |
| `Scenarios.TextSuffixDispatch` | app/ingest.py:20-26 | `notes.Text` is dispatched to the text loader. |
| `Scenarios.LastSuffixRejected` | app/ingest.py:20-27 | `archive.tar.gz` is rejected with suffix `.gz`. |
| `Scenarios.DirectoryVisitOrder` | app/ingest.py:33-34 | Entries `b.md, a.txt, c.text, D.PDF, e.pdf` are visited on POSIX as `e.pdf`, `a.txt`, `b.md`: pattern order first, listing order within a pattern. |

## Left out

- Cosine similarity (app/vectorstore.py:37-43) is floating-point arithmetic: sums, `** 0.5` and the `or 1e-9` guard. It is an abstract `Similarity` function, and ranking is proved for any real-valued score. NaN scores and float rounding are not modelled.
- The text splitter (`chunk_documents`, with chunk size 600 and overlap 100 by default) is library code. It is an abstract `Splitter`.
- The embedding model, the PDF and text loaders, the prompt template and the Ollama call (app/rag.py:41-50) are foreign calls. Embedders and loaders are function parameters that may fail. The language-model answer is not modelled; `AskContext` stops at the context string.
- `get_vectorstore` constructs the store with `get_embeddings()`. That construction is assumed to succeed, and the embedder is passed to each operation instead of being held by the store.
- `Path(path).resolve()`, `exists()`, `is_file()` and the directory iteration order are filesystem I/O. The model takes the path as already resolved. It reads the other three from `FileSystem`.
- `str.lower()` is modelled for ASCII letters only. No non-ASCII character lower-cases to a letter of `.pdf`, `.txt`, `.text` or `.md`, so dispatch is unaffected.
- `Paths.Suffix` follows the `PurePath.suffix` of Python 3.12: the name from its last dot, provided that dot is neither the first nor the last character. Later versions are not modelled. They may disagree on names that end in a dot or start with several dots (`..pdf`, say), and then such a name could be skipped rather than loaded.
- Metadata values other than `None`, booleans, integers and strings are not modelled; their truthiness is not distinguished.
- `Ingest.Matching`: the glob is modelled as on POSIX, case-sensitive, with `/` joining directory and entry. On Windows, Python 3.12's `pathlib` globs case-insensitively, so `*.pdf` would also visit `D.PDF`; that platform is not modelled.
- Logging (the "Skip" warning and the "Ingested" info line) is not modelled.
- Concurrency: the singleton has no locking in the code, and no lock discipline is modelled.
- `Ingest.IngestDocuments`: its own contract states only the error cases, growth and the count. The exact appended chunks are stated by `Ingest.IngestAppendsChunks` for the documents that were loaded, and `Ingest.IngestAfterLoading` connects that step to the whole call.
- `Rag.AskContext`: its own contract covers the empty store and the singleton. The context on a non-empty store is stated by `Rag.AskContextIsRetrieval`.
- app/main.py (HTTP routing and uploads), app/models.py, app/config.py (`retrieve_top_k`, default 4, is the `topK` parameter of `AskContext`), app/embeddings.py, app/logging_config.py, run.py and src/app/ are plumbing and are not part of this model.

=== FILE: documents.dfy ===
/** LangChain documents as the core sees them: page text plus a metadata dictionary. */
module Documents {

  /** A metadata value. Only the kinds whose truthiness the core tests are distinguished. */
  datatype Value = Null | Bool(b: bool) | Int(i: int) | Str(s: string)

  /** Python truthiness: `None`, `False`, `0` and `""` are falsy. */
  predicate Truthy(v: Value) {
    match v
    case Null => false
    case Bool(b) => b
    case Int(i) => i != 0
    case Str(s) => |s| > 0
  }

  datatype Document = Document(pageContent: string, metadata: map<string, Value>)

  const SOURCE_KEY: string := "source"

  /** `doc.metadata.get("source")` is truthy. */
  predicate HasSource(d: Document) {
    SOURCE_KEY in d.metadata && Truthy(d.metadata[SOURCE_KEY])
  }

  /** `[d.page_content for d in docs]`. */
  function Contents(docs: seq<Document>): seq<string> {
    seq(|docs|, i requires 0 <= i < |docs| => docs[i].pageContent)
  }
}

=== FILE: ingest.dfy ===
/**
 * The ingestion pipeline of app/ingest.py: load a file or a directory, split
 * the loaded documents into chunks, tag each chunk with its source and hand
 * the chunks to the singleton store.
 *
 * The filesystem, the PDF and text loaders and the text splitter are
 * collaborators whose behaviour is passed in as functions.
 */
module Ingest {
  import opened Outcomes
  import opened Documents
  import opened Paths
  import opened VectorStore

  /** What `Path.exists()` and `Path.is_file()` report for a path. */
  datatype PathKind = Missing | RegularFile | NotRegularFile

  /**
   * The filesystem as the pipeline observes it: the kind of each resolved
   * path and, for a directory, the names of its entries in iteration order.
   */
  datatype FileSystem = FileSystem(kind: string -> PathKind, listing: string -> seq<string>)

  /** `PyPDFLoader(path).load()` and `TextLoader(path, ...).load()`. */
  datatype Loaders = Loaders(pdf: string -> Result<seq<Document>>, text: string -> Result<seq<Document>>)

  /** `RecursiveCharacterTextSplitter(...).split_documents`, configured by the settings. */
  type Splitter = seq<Document> -> seq<Document>

  const PDF_SUFFIX: string := ".pdf"
  const TEXT_SUFFIXES: seq<string> := [".txt", ".text", ".md"]

  /** The extensions of the directory glob patterns `*.pdf`, `*.txt`, `*.md`, in pattern order. */
  const GLOB_EXTENSIONS: seq<string> := [".pdf", ".txt", ".md"]

  /** The lower-cased suffix `_load_file` dispatches on. */
  function FileSuffix(path: string): string {
    Lower(Suffix(Name(path)))
  }

  /** `_load_file`: dispatch on the lower-cased suffix, anything else is a ValueError. */
  function LoadFile(path: string, loaders: Loaders): (r: Result<seq<Document>>)
    ensures FileSuffix(path) == PDF_SUFFIX ==> r == loaders.pdf(path)
    ensures FileSuffix(path) in TEXT_SUFFIXES ==> r == loaders.text(path)
    ensures FileSuffix(path) != PDF_SUFFIX && FileSuffix(path) !in TEXT_SUFFIXES ==>
      r == Err(UnsupportedFileType(FileSuffix(path)))
  {
    var suffix := FileSuffix(path);
    if suffix == PDF_SUFFIX then loaders.pdf(path)
    else if suffix in TEXT_SUFFIXES then loaders.text(path)
    else Err(UnsupportedFileType(suffix))
  }

  /** What the pattern `*ext` keeps of one directory entry: its path, or nothing. */
  function Kept(dir: string, n: string, ext: string): seq<string> {
    if EndsWith(n, ext) then [Join(dir, n)] else []
  }

  /** `dir_path.glob("*" + ext)`: the entries whose name ends in `ext` (case-sensitive on POSIX). */
  function Matching(dir: string, names: seq<string>, ext: string): seq<string> {
    if |names| == 0 then [] else Kept(dir, names[0], ext) + Matching(dir, names[1..], ext)
  }

  /** The paths `_load_directory` visits: one glob per pattern, in pattern order. */
  function Candidates(dir: string, names: seq<string>): seq<string> {
    Matching(dir, names, GLOB_EXTENSIONS[0]) + Matching(dir, names, GLOB_EXTENSIONS[1]) +
    Matching(dir, names, GLOB_EXTENSIONS[2])
  }

  /** The documents one visited path contributes: its load, or nothing when the load raised. */
  function Loaded(path: string, loaders: Loaders): seq<Document> {
    match LoadFile(path, loaders)
    case Ok(docs) => docs
    case Err(_) => []
  }

  /** `Loaded` as the per-path step of the accumulation loop. */
  function Loader(loaders: Loaders): string -> seq<Document> {
    path => Loaded(path, loaders)
  }

  /** The accumulation loop of `_load_directory`, for any per-path step `load`. */
  function LoadEach(paths: seq<string>, load: string -> seq<Document>): seq<Document> {
    if |paths| == 0 then [] else load(paths[0]) + LoadEach(paths[1..], load)
  }

  /** `_load_directory`: never raises, since a failed load is logged and skipped. */
  function LoadDirectory(fs: FileSystem, dir: string, loaders: Loaders): seq<Document> {
    LoadEach(Candidates(dir, fs.listing(dir)), Loader(loaders))
  }

  /**
   * The `if path.is_file()` step of `ingest_documents`, on a path that exists.
   * Only a single file can raise: a directory load swallows every failure.
   */
  function RawDocuments(fs: FileSystem, loaders: Loaders, path: string): (r: Result<seq<Document>>)
    ensures r.Err? ==> fs.kind(path) == RegularFile && r == LoadFile(path, loaders)
    ensures fs.kind(path) == RegularFile && LoadFile(path, loaders).Err? ==> r == LoadFile(path, loaders)
  {
    if fs.kind(path) == RegularFile then LoadFile(path, loaders) else Ok(LoadDirectory(fs, path, loaders))
  }

  /** One step of the tagging loop: a missing or falsy `source` becomes `str(path)`. */
  function TagSource(d: Document, path: string): Document {
    if HasSource(d) then d else d.(metadata := d.metadata[SOURCE_KEY := Str(path)])
  }

  /** The tagging loop over all chunks. */
  function TagSources(chunks: seq<Document>, path: string): (r: seq<Document>)
    ensures |r| == |chunks|
    ensures forall i :: 0 <= i < |r| ==> r[i].pageContent == chunks[i].pageContent
    ensures forall i :: 0 <= i < |r| ==> r[i].metadata - {SOURCE_KEY} == chunks[i].metadata - {SOURCE_KEY}
    ensures forall i :: 0 <= i < |r| && HasSource(chunks[i]) ==> r[i] == chunks[i]
    ensures forall i :: 0 <= i < |r| && !HasSource(chunks[i]) ==>
      SOURCE_KEY in r[i].metadata && r[i].metadata[SOURCE_KEY] == Str(path)
    ensures |path| > 0 ==> forall i :: 0 <= i < |r| ==> HasSource(r[i])
  {
    seq(|chunks|, i requires 0 <= i < |chunks| => TagSource(chunks[i], path))
  }

  /**
   * The last step of `ingest_documents`: fetch the singleton store, add the
   * chunks, and answer their number.
   */
  function StoreChunks(slot: Slot, chunks: seq<Document>, embed: EmbedDocuments): (r: (Slot, Result<nat>))
    ensures r.0.Set?
    ensures Extends(Current(slot), Current(r.0))
    ensures r.1.Err? ==> Current(r.0) == Current(slot)
    ensures r.1.Ok? ==> Current(r.0).docs == Current(slot).docs + chunks && r.1.value == |chunks|
    ensures Parallel(Current(slot)) && OneVectorPerText(embed, Contents(chunks)) ==> Parallel(Current(r.0))
    ensures r.1.Err? <==> |chunks| > 0 && embed(Contents(chunks)).Err?
  {
    var (slot', store) := GetVectorstore(slot);
    var (store', outcome) := AddDocuments(store, chunks, embed);
    match outcome
    case Fail(e) => (slot', Err(e))
    case Pass => (Set(store'), Ok(|chunks|))
  }

  /**
   * `ingest_documents` on a resolved path: the process-wide store slot goes in
   * and comes out, together with the number of chunks added or the exception.
   */
  function IngestDocuments(slot: Slot, fs: FileSystem, loaders: Loaders, split: Splitter,
                           embed: EmbedDocuments, path: string): (r: (Slot, Result<nat>))
    ensures fs.kind(path) == Missing ==> r == (slot, Err(FileNotFound(path)))
    ensures Extends(Current(slot), Current(r.0))
    ensures r.1.Err? ==> Current(r.0) == Current(slot)
    ensures r.1.Ok? ==> |Current(r.0).docs| == |Current(slot).docs| + r.1.value
    ensures Parallel(Current(slot)) && (forall t :: OneVectorPerText(embed, t)) ==> Parallel(Current(r.0))
  {
    if fs.kind(path) == Missing then (slot, Err(FileNotFound(path)))
    else
      match RawDocuments(fs, loaders, path)
      case Err(e) => (slot, Err(e))
      case Ok(raw) => IngestLoaded(slot, raw, split, embed, path)
  }

  /**
   * The steps of `ingest_documents` after loading: the early 0 (before the
   * store is even fetched), then chunking, tagging and storing.
   */
  function IngestLoaded(slot: Slot, raw: seq<Document>, split: Splitter, embed: EmbedDocuments,
                        path: string): (r: (Slot, Result<nat>))
    ensures |raw| == 0 ==> r == (slot, Ok(0))
    ensures |raw| > 0 ==> r.0.Set?
    ensures Extends(Current(slot), Current(r.0))
    ensures r.1.Err? ==> Current(r.0) == Current(slot)
    ensures r.1.Ok? ==> |Current(r.0).docs| == |Current(slot).docs| + r.1.value
    ensures Parallel(Current(slot)) && (forall t :: OneVectorPerText(embed, t)) ==> Parallel(Current(r.0))
    ensures |raw| > 0 ==> (r.1.Err? <==> |split(raw)| > 0 && embed(Contents(split(raw))).Err?)
  {
    if |raw| == 0 then (slot, Ok(0))
    else
      assert Contents(TagSources(split(raw), path)) == Contents(split(raw));
      StoreChunks(slot, TagSources(split(raw), path), embed)
  }

  // ---------------------------------------------------------------------------
  // Directory loading

  /** The glob keeps exactly the entries whose name ends in the extension. */
  lemma {:induction false} MatchingMembers(dir: string, names: seq<string>, ext: string, p: string)
    ensures p in Matching(dir, names, ext) <==> exists n :: n in names && EndsWith(n, ext) && p == Join(dir, n)
  {
    if |names| > 0 {
      MatchingMembers(dir, names[1..], ext, p);
      assert forall n :: n in names <==> n == names[0] || n in names[1..];
    }
  }

  /**
   * Within one pattern, entries are visited in directory-listing order: the
   * glob over two runs of entries is the glob over the first, then the second.
   */
  lemma {:induction false} MatchingAppend(dir: string, a: seq<string>, b: seq<string>, ext: string)
    ensures Matching(dir, a + b, ext) == Matching(dir, a, ext) + Matching(dir, b, ext)
  {
    if |a| == 0 {
      assert a + b == b;
    } else {
      assert (a + b)[0] == a[0] && (a + b)[1..] == a[1..] + b;
      MatchingAppend(dir, a[1..], b, ext);
    }
  }

  /**
   * `_load_directory` loads pattern by pattern: everything `*.pdf` matched,
   * then `*.txt`, then `*.md`.
   */
  lemma LoadDirectoryByPattern(fs: FileSystem, dir: string, loaders: Loaders)
    ensures var names, load := fs.listing(dir), Loader(loaders);
      LoadDirectory(fs, dir, loaders) ==
        LoadEach(Matching(dir, names, ".pdf"), load) +
        LoadEach(Matching(dir, names, ".txt"), load) +
        LoadEach(Matching(dir, names, ".md"), load)
  {
    var names, load := fs.listing(dir), Loader(loaders);
    var pdf, txt, md := Matching(dir, names, ".pdf"), Matching(dir, names, ".txt"), Matching(dir, names, ".md");
    assert Candidates(dir, names) == pdf + txt + md;
    LoadEachAppend(pdf + txt, md, load);
    LoadEachAppend(pdf, txt, load);
  }

  /** Loading a concatenation of path lists concatenates the loads. */
  lemma {:induction false} LoadEachAppend(a: seq<string>, b: seq<string>, load: string -> seq<Document>)
    ensures LoadEach(a + b, load) == LoadEach(a, load) + LoadEach(b, load)
  {
    if |a| == 0 {
      assert a + b == b;
    } else {
      assert (a + b)[1..] == a[1..] + b;
      LoadEachAppend(a[1..], b, load);
    }
  }

  /**
   * The documents of the `i`-th visited path sit, in their load order, between
   * those of the paths before it and those of the paths after it.
   */
  lemma LoadEachAt(paths: seq<string>, i: nat, load: string -> seq<Document>)
    requires i < |paths|
    ensures LoadEach(paths, load) ==
      LoadEach(paths[..i], load) + load(paths[i]) + LoadEach(paths[i + 1..], load)
  {
    var rest := paths[i..];
    assert paths == paths[..i] + rest;
    LoadEachAppend(paths[..i], rest, load);
    assert rest[0] == paths[i] && rest[1..] == paths[i + 1..];
    assert LoadEach(rest, load) == load(paths[i]) + LoadEach(paths[i + 1..], load);
  }

  /** A path that contributes nothing drops out of the accumulated documents. */
  lemma LoadEachWithout(before: seq<string>, bad: string, after: seq<string>, load: string -> seq<Document>)
    requires load(bad) == []
    ensures LoadEach(before + [bad] + after, load) == LoadEach(before, load) + LoadEach(after, load)
  {
    assert LoadEach([bad], load) == load(bad) + LoadEach([], load);
    LoadEachAppend(before + [bad], after, load);
    LoadEachAppend(before, [bad], load);
  }

  /** A path whose load raises is skipped and every other path is still loaded. */
  lemma SkipFailedLoad(before: seq<string>, bad: string, after: seq<string>, loaders: Loaders)
    requires LoadFile(bad, loaders).Err?
    ensures var load := Loader(loaders);
      LoadEach(before + [bad] + after, load) == LoadEach(before, load) + LoadEach(after, load)
  {
    assert Loader(loaders)(bad) == Loaded(bad, loaders) == [];
    LoadEachWithout(before, bad, after, Loader(loaders));
  }

  /** Every glob extension is a dot and a dot-free, slash-free lower-case word. */
  lemma GlobExtensionShape(ext: string)
    requires ext in GLOB_EXTENSIONS
    ensures 2 <= |ext| && ext[0] == '.' && '.' !in ext[1..] && '/' !in ext && Lower(ext) == ext
  {
    if ext == ".pdf" {
    } else if ext == ".txt" {
    } else {
      assert ext == ".md";
    }
  }

  /**
   * A directory entry matched by a glob pattern and longer than its extension
   * reaches the loader for that extension: `.pdf` the PDF loader, `.txt` and
   * `.md` the text loader.
   */
  lemma CandidateDispatch(dir: string, name: string, ext: string, loaders: Loaders)
    requires ext in GLOB_EXTENSIONS && EndsWith(name, ext) && |ext| < |name| && '/' !in name
    ensures ext == PDF_SUFFIX ==> LoadFile(Join(dir, name), loaders) == loaders.pdf(Join(dir, name))
    ensures ext != PDF_SUFFIX ==> LoadFile(Join(dir, name), loaders) == loaders.text(Join(dir, name))
  {
    GlobExtensionShape(ext);
    FileSuffixOfJoin(dir, name, ext);
    assert ext != PDF_SUFFIX ==> ext in TEXT_SUFFIXES;
  }

  /** A file named `name ext` inside any directory dispatches on the lower-cased `ext`. */
  lemma FileSuffixOfJoin(dir: string, name: string, ext: string)
    requires '/' !in name && EndsWith(name, ext) && |ext| < |name|
    requires 2 <= |ext| && ext[0] == '.' && '.' !in ext[1..]
    ensures FileSuffix(Join(dir, name)) == Lower(ext)
  {
    NameOfJoin(dir, name);
    SuffixOfExtension(name, ext);
  }

  /** A name that is just a dot and an extension has no suffix. */
  lemma BareExtensionSuffix(ext: string)
    requires ext in GLOB_EXTENSIONS
    ensures Suffix(ext) == ""
  {
    var i := RFind(ext, '.');
    GlobExtensionShape(ext);
    assert i == 0;
  }

  /**
   * An entry named exactly like a pattern's extension (`.md`, say) is matched
   * by the glob but has no suffix; the ValueError it raises is skipped.
   */
  lemma BareExtensionSkipped(dir: string, ext: string, loaders: Loaders)
    requires ext in GLOB_EXTENSIONS
    ensures LoadFile(Join(dir, ext), loaders) == Err(UnsupportedFileType(""))
    ensures Loaded(Join(dir, ext), loaders) == []
  {
    var p := Join(dir, ext);
    GlobExtensionShape(ext);
    NameOfJoin(dir, ext);
    BareExtensionSuffix(ext);
    assert FileSuffix(p) == Lower("") == "";
  }

  /** The last characters of a string agree with those of any suffix of it. */
  lemma EndsWithAt(n: string, t: string, j: nat)
    requires EndsWith(n, t) && 1 <= j <= |t|
    ensures n[|n| - j] == t[|t| - j]
  {
    assert n[|n| - |t|..][|t| - j] == n[|n| - j];
  }

  /** A name ending in `.text` ends in none of the glob extensions. */
  lemma TextEndingNotGlobbed(n: string, ext: string)
    requires EndsWith(n, ".text") && ext in GLOB_EXTENSIONS
    ensures !EndsWith(n, ext)
  {
    EndsWithAt(n, ".text", 1);
    EndsWithAt(n, ".text", 3);
    assert |ext| <= 4 < |n|;
    var tail := n[|n| - |ext|..];
    if ext == ".txt" {
      assert tail[1] == n[|n| - 3] == 'e';
      assert tail[1] != ext[1];
    } else {
      assert tail[|ext| - 1] == n[|n| - 1] == 't';
      assert tail[|ext| - 1] != ext[|ext| - 1];
    }
  }

  /** A glob over entries none of which ends in the extension yields nothing. */
  lemma {:induction false} MatchingNone(dir: string, names: seq<string>, ext: string)
    requires forall n :: n in names ==> !EndsWith(n, ext)
    ensures Matching(dir, names, ext) == []
  {
    if |names| > 0 {
      assert names[0] in names;
      MatchingNone(dir, names[1..], ext);
    }
  }

  /**
   * `.text` files are loadable one at a time but are not matched by any
   * directory pattern: a directory holding only `.text` files loads nothing.
   */
  lemma TextExtensionNotGlobbed(fs: FileSystem, dir: string, loaders: Loaders)
    requires forall n :: n in fs.listing(dir) ==> EndsWith(n, ".text")
    ensures LoadDirectory(fs, dir, loaders) == []
  {
    var names := fs.listing(dir);
    forall ext | ext in GLOB_EXTENSIONS
      ensures Matching(dir, names, ext) == []
    {
      forall n | n in names
        ensures !EndsWith(n, ext)
      {
        TextEndingNotGlobbed(n, ext);
      }
      MatchingNone(dir, names, ext);
    }
    assert Candidates(dir, names) == [];
  }

  // ---------------------------------------------------------------------------
  // ingest_documents

  /**
   * A single file is not skipped: when its load raises (an unsupported
   * suffix, or a loader failure), the exception propagates and nothing is added.
   */
  lemma IngestFileLoadFails(slot: Slot, fs: FileSystem, loaders: Loaders, split: Splitter,
                            embed: EmbedDocuments, path: string)
    requires fs.kind(path) == RegularFile && LoadFile(path, loaders).Err?
    ensures IngestDocuments(slot, fs, loaders, split, embed, path) == (slot, Err(LoadFile(path, loaders).error))
  {
  }

  /**
   * When nothing is loaded the answer is 0, whatever the splitter and the
   * embedder would do, and the store slot is left as it was (not even created).
   */
  lemma IngestNothingLoaded(slot: Slot, fs: FileSystem, loaders: Loaders, split: Splitter,
                            embed: EmbedDocuments, path: string)
    requires fs.kind(path) != Missing && RawDocuments(fs, loaders, path) == Ok([])
    ensures IngestDocuments(slot, fs, loaders, split, embed, path) == (slot, Ok(0))
  {
  }

  /** Once the path has loaded, ingestion continues with what was loaded. */
  lemma IngestAfterLoading(slot: Slot, fs: FileSystem, loaders: Loaders, split: Splitter,
                           embed: EmbedDocuments, path: string, raw: seq<Document>)
    requires fs.kind(path) != Missing && RawDocuments(fs, loaders, path) == Ok(raw)
    ensures IngestDocuments(slot, fs, loaders, split, embed, path) == IngestLoaded(slot, raw, split, embed, path)
  {
  }

  /**
   * A successful ingestion of loaded documents appends the tagged chunks to
   * the store in splitter order and answers their number; with a non-empty
   * path every appended chunk carries a truthy `source`.
   */
  lemma IngestAppendsChunks(slot: Slot, raw: seq<Document>, split: Splitter, embed: EmbedDocuments,
                            path: string)
    requires |raw| > 0 && IngestLoaded(slot, raw, split, embed, path).1.Ok?
    ensures var chunks := split(raw);
      var (slot', count) := IngestLoaded(slot, raw, split, embed, path);
      && count == Ok(|chunks|)
      && Current(slot').docs == Current(slot).docs + TagSources(chunks, path)
      && (|path| > 0 ==> forall i :: |Current(slot).docs| <= i < |Current(slot').docs| ==>
            HasSource(Current(slot').docs[i]))
  {
  }

  /** A directory of `.text` files ingests nothing. */
  lemma IngestTextOnlyDirectory(slot: Slot, fs: FileSystem, loaders: Loaders, split: Splitter,
                                embed: EmbedDocuments, path: string)
    requires fs.kind(path) == NotRegularFile
    requires forall n :: n in fs.listing(path) ==> EndsWith(n, ".text")
    ensures IngestDocuments(slot, fs, loaders, split, embed, path) == (slot, Ok(0))
  {
    TextExtensionNotGlobbed(fs, path, loaders);
  }
}

=== FILE: outcomes.dfy ===
/** Failure-carrying values for the operations of the core that can raise. */
module Outcomes {

  /** The exceptions the core raises itself or lets through from a collaborator. */
  datatype Error =
    | FileNotFound(path: string)          // ingest_documents on a path that does not exist
    | UnsupportedFileType(suffix: string) // _load_file on a suffix it has no loader for
    | LoaderFailed(reason: string)        // a PDF or text loader raised
    | EmbeddingFailed(reason: string)     // the embedding model raised
    | IndexOutOfRange                     // `_docs[i]` past the end of `_docs`

  /** A value or the exception that replaced it. */
  datatype Result<+T> = Ok(value: T) | Err(error: Error) {

    predicate IsFailure() {
      Err?
    }

    function PropagateFailure<U>(): Result<U>
      requires Err?
    {
      Err(error)
    }

    function Extract(): T
      requires Ok?
    {
      value
    }
  }

  /** The outcome of a call that returns nothing (`-> None`) but may raise. */
  datatype Outcome = Pass | Fail(error: Error)

  datatype Option<+T> = None | Some(value: T)
}

=== FILE: paths.dfy ===
/**
 * The parts of `pathlib` and `str` the ingestion dispatch relies on: the
 * final path component, its suffix, ASCII lower-casing and the `*.ext` glob
 * pattern on POSIX.
 */
module Paths {

  /** `str.lower()` on the ASCII letters. */
  function LowerChar(c: char): char {
    if 'A' <= c <= 'Z' then (c as int + 32) as char else c
  }

  function Lower(s: string): (r: string)
    ensures |r| == |s|
  {
    seq(|s|, i requires 0 <= i < |s| => LowerChar(s[i]))
  }

  /** `s.rfind(c)`: the position of the last `c` in `s`, or -1 when there is none. */
  function RFind(s: string, c: char): (i: int)
    ensures -1 <= i < |s|
    ensures 0 <= i ==> s[i] == c
    ensures forall j :: i < j < |s| ==> s[j] != c
  {
    if |s| == 0 then -1
    else if s[|s| - 1] == c then |s| - 1
    else RFind(s[..|s| - 1], c)
  }

  /** `PurePath.name` of a normalised path: the text after its last '/'. */
  function Name(path: string): (r: string)
    ensures |r| <= |path| && r == path[|path| - |r|..] && '/' !in r
  {
    path[RFind(path, '/') + 1..]
  }

  /**
   * `PurePath.suffix`: the name from its last '.', provided that dot is
   * neither its first character nor its last; otherwise empty.
   */
  function Suffix(name: string): (r: string)
    ensures r == "" || (2 <= |r| && r[0] == '.' && '.' !in r[1..] && |r| <= |name| && r == name[|name| - |r|..])
    ensures r != "" <==> 2 <= |name| && name[|name| - 1] != '.' && '.' in name[1..]
  {
    var i := RFind(name, '.');
    if 0 < i < |name| - 1 then name[i..] else ""
  }

  predicate EndsWith(s: string, t: string) {
    |t| <= |s| && s[|s| - |t|..] == t
  }

  /**
   * `Path(dir) / name` for a normalised directory path: the directory, then
   * a '/' (the directory's own trailing one, if it has one), then the name.
   */
  function Join(dir: string, name: string): string {
    if |dir| > 0 && dir[|dir| - 1] == '/' then dir + name else dir + "/" + name
  }

  /** `lower()` maps exactly the ASCII capitals to their small letters and keeps every other character. */
  lemma LowerChars(s: string)
    ensures forall i :: 0 <= i < |s| && 'A' <= s[i] <= 'Z' ==> Lower(s)[i] as int == s[i] as int + 32
    ensures forall i :: 0 <= i < |s| && !('A' <= s[i] <= 'Z') ==> Lower(s)[i] == s[i]
  {
  }

  /** The name is the whole final component: it is the path, or a '/' stands right before it. */
  lemma NameIsFinalComponent(path: string)
    ensures |Name(path)| < |path| ==> path[|path| - |Name(path)| - 1] == '/'
  {
    var i := RFind(path, '/');
    assert |Name(path)| == |path| - i - 1;
  }

  /** A joined path starts with the directory and ends with a '/' and the name. */
  lemma JoinShape(dir: string, name: string)
    ensures var r := Join(dir, name);
      dir <= r && |name| < |r| && r[|r| - |name|..] == name && r[|r| - |name| - 1] == '/'
  {
  }

  /** The name of a joined path is the joined name. */
  lemma NameOfJoin(dir: string, name: string)
    requires '/' !in name
    ensures Name(Join(dir, name)) == name
  {
    var p := Join(dir, name);
    var i := RFind(p, '/');
    var start := |p| - |name|;
    assert p[start - 1] == '/';
    assert p[start..] == name;
    assert i == start - 1;
  }

  /**
   * A name that ends in `ext` (a dot followed by dot-free text) and is longer
   * than `ext` has exactly `ext` as its suffix.
   */
  lemma SuffixOfExtension(name: string, ext: string)
    requires 2 <= |ext| && ext[0] == '.' && '.' !in ext[1..]
    requires EndsWith(name, ext) && |ext| < |name|
    ensures Suffix(name) == ext
  {
    var start := |name| - |ext|;
    var i := RFind(name, '.');
    assert name[start..] == ext;
    assert name[start] == '.';
    assert i == start;
  }
}

=== FILE: rag.dfy ===
/**
 * The retrieval-to-context step of app/rag.py: `_format_docs` and the part of
 * `ask_rag` that fetches the store, retrieves with `k = retrieve_top_k` and
 * formats the result. The prompt and the language-model call are not modelled.
 */
module Rag {
  import opened Outcomes
  import opened Documents
  import opened Ranking
  import opened VectorStore

  /** The separator `_format_docs` puts between two page contents. */
  const SEPARATOR: string := "\n\n---\n\n"

  /** `SEPARATOR.join(parts)`. */
  function JoinWithSeparator(parts: seq<string>): string {
    if |parts| == 0 then ""
    else if |parts| == 1 then parts[0]
    else parts[0] + SEPARATOR + JoinWithSeparator(parts[1..])
  }

  /** Total length of the parts. */
  function SumLengths(parts: seq<string>): nat {
    if |parts| == 0 then 0 else |parts[0]| + SumLengths(parts[1..])
  }

  /** Where the `i`-th part starts in the joined text. */
  function Offset(parts: seq<string>, i: nat): nat
    requires i <= |parts|
  {
    SumLengths(parts[..i]) + |SEPARATOR| * i
  }

  /** `_format_docs`: the page contents joined by the separator. */
  function FormatDocs(docs: seq<Document>): (r: string)
    ensures |docs| == 0 ==> r == ""
    ensures |docs| == 1 ==> r == docs[0].pageContent
  {
    JoinWithSeparator(Contents(docs))
  }

  lemma {:induction false} JoinLength(parts: seq<string>)
    requires |parts| >= 1
    ensures |JoinWithSeparator(parts)| == SumLengths(parts) + 7 * (|parts| - 1)
  {
    if |parts| >= 2 {
      JoinLength(parts[1..]);
    } else {
      assert parts[1..] == [];
    }
  }

  /** For `n >= 1` documents the context is `7 * (n - 1)` characters longer than their contents. */
  lemma FormatDocsLength(docs: seq<Document>)
    requires |docs| >= 1
    ensures |FormatDocs(docs)| == SumLengths(Contents(docs)) + 7 * (|docs| - 1)
  {
    JoinLength(Contents(docs));
  }

  lemma OffsetStep(parts: seq<string>, i: nat)
    requires 1 <= i <= |parts|
    ensures Offset(parts, i) == |parts[0]| + |SEPARATOR| + Offset(parts[1..], i - 1)
  {
    assert parts[..i][1..] == parts[1..][..i - 1];
  }

  lemma SliceAfter(a: string, b: string, x: nat, y: nat)
    requires x <= y <= |b|
    ensures (a + b)[|a| + x..|a| + y] == b[x..y]
  {
  }

  /** The first part opens the joined text, followed by a separator when more parts come. */
  lemma JoinHead(parts: seq<string>)
    requires |parts| >= 1
    ensures |parts[0]| <= |JoinWithSeparator(parts)| && JoinWithSeparator(parts)[..|parts[0]|] == parts[0]
    ensures |parts| == 1 ==> |JoinWithSeparator(parts)| == |parts[0]|
    ensures |parts| >= 2 ==>
      JoinWithSeparator(parts) == (parts[0] + SEPARATOR) + JoinWithSeparator(parts[1..]) &&
      JoinWithSeparator(parts)[|parts[0]|..|parts[0]| + |SEPARATOR|] == SEPARATOR
  {
    if |parts| >= 2 {
      var a := parts[0] + SEPARATOR;
      assert JoinWithSeparator(parts) == a + JoinWithSeparator(parts[1..]);
      assert JoinWithSeparator(parts)[..|parts[0]|] == a[..|parts[0]|];
      assert JoinWithSeparator(parts)[|parts[0]|..|a|] == a[|parts[0]|..];
    }
  }

  /**
   * Layout of the joined text around its `i`-th part: the part sits at
   * `Offset(parts, i)`, a separator follows it unless it is the last part,
   * and the last part ends the text.
   */
  predicate LaidOut(parts: seq<string>, i: nat)
    requires i < |parts|
  {
    var text := JoinWithSeparator(parts);
    var o := Offset(parts, i);
    var e := o + |parts[i]|;
    && e <= |text|
    && text[o..e] == parts[i]
    && (i + 1 < |parts| ==> e + |SEPARATOR| <= |text| && text[e..e + |SEPARATOR|] == SEPARATOR)
    && (i + 1 == |parts| ==> e == |text|)
  }

  /** The layout of a later part carries over from the parts after the first. */
  lemma LaidOutShift(parts: seq<string>, i: nat)
    requires 1 <= i < |parts| && LaidOut(parts[1..], i - 1)
    ensures LaidOut(parts, i)
  {
    JoinHead(parts);
    var a := parts[0] + SEPARATOR;
    var rest := JoinWithSeparator(parts[1..]);
    OffsetStep(parts, i);
    var o := Offset(parts[1..], i - 1);
    var e := o + |parts[i]|;
    assert parts[1..][i - 1] == parts[i];
    assert Offset(parts, i) == |a| + o;
    assert JoinWithSeparator(parts) == a + rest;
    assert e <= |rest| && rest[o..e] == parts[i];
    SliceAfter(a, rest, o, e);
    if i + 1 < |parts| {
      assert e + |SEPARATOR| <= |rest| && rest[e..e + |SEPARATOR|] == SEPARATOR;
      SliceAfter(a, rest, e, e + |SEPARATOR|);
    }
  }

  /** Every part of the joined text is laid out as `LaidOut` describes. */
  lemma {:induction false} JoinLayout(parts: seq<string>, i: nat)
    requires i < |parts|
    ensures LaidOut(parts, i)
  {
    if i == 0 {
      JoinHead(parts);
      assert Offset(parts, 0) == 0;
    } else {
      JoinLayout(parts[1..], i - 1);
      LaidOutShift(parts, i);
    }
  }

  /**
   * The context holds the `i`-th retrieved document's content at its offset,
   * in retrieval order, with the separator between neighbours.
   */
  lemma FormatDocsLayout(docs: seq<Document>, i: nat)
    requires i < |docs|
    ensures var parts := Contents(docs);
      var o := Offset(parts, i);
      var e := o + |docs[i].pageContent|;
      && e <= |FormatDocs(docs)|
      && FormatDocs(docs)[o..e] == docs[i].pageContent
      && (i + 1 < |docs| ==> e + |SEPARATOR| <= |FormatDocs(docs)| && FormatDocs(docs)[e..e + |SEPARATOR|] == SEPARATOR)
      && (i + 1 == |docs| ==> e == |FormatDocs(docs)|)
  {
    JoinLayout(Contents(docs), i);
    assert Contents(docs)[i] == docs[i].pageContent;
  }

  /** The `k` of `as_retriever`: `(search_kwargs or {}).get("k", settings.retrieve_top_k)`. */
  function RetrieverK(searchKwargs: Option<map<string, int>>, settingsTopK: int): (k: int)
    ensures searchKwargs.Some? && "k" in searchKwargs.value ==> k == searchKwargs.value["k"]
    ensures searchKwargs.None? || "k" !in searchKwargs.value ==> k == settingsTopK
  {
    match searchKwargs
    case Some(m) => if "k" in m then m["k"] else settingsTopK
    case None => settingsTopK
  }

  /**
   * The context `ask_rag` builds for a question: the singleton store, a
   * retriever with `k = retrieve_top_k`, and the formatted retrieved documents.
   * The slot after the call is returned with it.
   */
  function AskContext(slot: Slot, question: string, topK: int, embedQuery: EmbedQuery,
                      score: Similarity): (r: (Slot, Result<string>))
    ensures r.0 == Set(Current(slot))
    ensures |Current(slot).docs| == 0 ==> r.1 == Ok("")
  {
    var (slot', store) := GetVectorstore(slot);
    var k := RetrieverK(Some(map["k" := topK]), topK);
    match Retrieve(store, k, question, embedQuery, score)
    case Ok(docs) => (slot', Ok(FormatDocs(docs)))
    case Err(e) => (slot', Err(e))
  }

  /**
   * On a store that keeps its invariant, the context is the top-`topK`
   * documents' contents in retrieval order, joined by the separator.
   */
  lemma AskContextIsRetrieval(slot: Slot, question: string, topK: int, embedQuery: EmbedQuery,
                              score: Similarity)
    requires Parallel(Current(slot)) && |Current(slot).docs| > 0 && embedQuery(question).Ok?
    ensures var s := Current(slot);
      var idx := TopIndices(Scores(embedQuery(question).value, s.vectors, score), topK);
      var r := AskContext(slot, question, topK, embedQuery, score);
      && (forall p :: 0 <= p < |idx| ==> idx[p] < |s.docs|)
      && r.1 == Ok(JoinWithSeparator(seq(|idx|, p requires 0 <= p < |idx| => s.docs[idx[p]].pageContent)))
  {
    var s := Current(slot);
    RetrieveRanked(s, topK, question, embedQuery, score);
    var docs := Retrieve(s, topK, question, embedQuery, score).value;
    var idx := TopIndices(Scores(embedQuery(question).value, s.vectors, score), topK);
    assert Contents(docs) == seq(|idx|, p requires 0 <= p < |idx| => s.docs[idx[p]].pageContent);
  }

  /** Asking changes no stored entry, so asking again gives the same context. */
  lemma AskContextRepeatable(slot: Slot, question: string, topK: int, embedQuery: EmbedQuery,
                             score: Similarity)
    ensures var (slot', ctx) := AskContext(slot, question, topK, embedQuery, score);
      Current(slot') == Current(slot) &&
      AskContext(slot', question, topK, embedQuery, score) == (slot', ctx)
  {
  }
}

=== FILE: ranking.dfy ===
/**
 * The ranking step of the retriever: the `(sim, i)` pairs built by the scoring
 * loop, `scores.sort(reverse=True, key=lambda x: x[0])` and `scores[:k]`.
 * Scores are abstract reals; how they are computed is not this module's concern.
 */
module Ranking {

  /** One `(sim, i)` pair: a similarity and the insertion index it belongs to. */
  datatype Scored = Scored(score: real, index: nat)

  /** `a` belongs strictly before `b` in a stable descending ranking by score. */
  predicate Before(a: Scored, b: Scored) {
    a.score > b.score || (a.score == b.score && a.index < b.index)
  }

  predicate NonIncreasing(s: seq<Scored>) {
    forall i, j :: 0 <= i < j < |s| ==> s[i].score >= s[j].score
  }

  /** Higher scores first; among equal scores the lower insertion index first. */
  predicate Ranked(s: seq<Scored>) {
    forall i, j :: 0 <= i < j < |s| ==> Before(s[i], s[j])
  }

  /** The order in which the scoring loop emits its pairs. */
  predicate IncreasingIndices(s: seq<Scored>) {
    forall i, j :: 0 <= i < j < |s| ==> s[i].index < s[j].index
  }

  /** The pairs of `s` whose score is `v`, in their order in `s`. */
  function WithScore(s: seq<Scored>, v: real): seq<Scored> {
    if |s| == 0 then []
    else (if s[0].score == v then [s[0]] else []) + WithScore(s[1..], v)
  }

  /**
   * Places `x`, which precedes every element of `s` in the input, in front of
   * the first element that does not score strictly higher.
   */
  function Insert(x: Scored, s: seq<Scored>): seq<Scored> {
    if |s| == 0 || x.score >= s[0].score then [x] + s
    else [s[0]] + Insert(x, s[1..])
  }

  /**
   * `list.sort(reverse=True, key=...)`: Python's sort is stable, and stays
   * stable with `reverse=True`, so equal scores keep their input order.
   */
  function SortDescending(s: seq<Scored>): seq<Scored> {
    if |s| == 0 then []
    else Insert(s[0], SortDescending(s[1..]))
  }

  /** `s[:k]`: a negative bound counts from the end, and both ends are clamped. */
  function SliceTo<T>(s: seq<T>, k: int): (r: seq<T>)
    ensures r <= s
    ensures 0 <= k ==> |r| == if k <= |s| then k else |s|
    ensures k < 0 ==> |r| == if -k <= |s| then |s| + k else 0
  {
    var stop := if k < 0 then k + |s| else k;
    var end := if stop < 0 then 0 else if stop > |s| then |s| else stop;
    s[..end]
  }

  /** `enumerate` paired with the scores: `(keys[i], i)` for every `i`. */
  function Enumerate(keys: seq<real>): seq<Scored> {
    seq(|keys|, i requires 0 <= i < |keys| => Scored(keys[i], i))
  }

  /** The indices kept by `scores[:k]` after the sort, in result order. */
  function TopIndices(keys: seq<real>, k: int): seq<nat> {
    var top := SliceTo(SortDescending(Enumerate(keys)), k);
    seq(|top|, p requires 0 <= p < |top| => top[p].index)
  }

  /** Entry `i` outranks entry `j`: a higher score, or an equal score and a lower index. */
  predicate Outranks(keys: seq<real>, i: nat, j: nat)
    requires i < |keys| && j < |keys|
  {
    Before(Scored(keys[i], i), Scored(keys[j], j))
  }

  // ---------------------------------------------------------------------------
  // The sort

  /** One insertion step adds exactly the inserted pair. */
  lemma {:induction false} InsertPermutes(x: Scored, s: seq<Scored>)
    ensures multiset(Insert(x, s)) == multiset(s) + multiset{x}
  {
    if |s| > 0 && x.score < s[0].score {
      InsertPermutes(x, s[1..]);
      assert s == [s[0]] + s[1..];
    }
  }

  /** The sort is a permutation of its input. */
  lemma {:induction false} SortPermutes(s: seq<Scored>)
    ensures multiset(SortDescending(s)) == multiset(s)
  {
    if |s| > 0 {
      SortPermutes(s[1..]);
      InsertPermutes(s[0], SortDescending(s[1..]));
      assert s == [s[0]] + s[1..];
    }
  }

  lemma InsertMember(x: Scored, s: seq<Scored>, y: Scored)
    requires y in Insert(x, s)
    ensures y == x || y in s
  {
    InsertPermutes(x, s);
    assert y in multiset(Insert(x, s));
  }

  lemma SortMember(s: seq<Scored>, y: Scored)
    requires y in SortDescending(s)
    ensures y in s
  {
    SortPermutes(s);
    assert y in multiset(SortDescending(s));
  }

  lemma {:induction false} InsertNonIncreasing(x: Scored, s: seq<Scored>)
    requires NonIncreasing(s)
    ensures NonIncreasing(Insert(x, s))
  {
    if |s| == 0 || x.score >= s[0].score {
    } else {
      InsertNonIncreasing(x, s[1..]);
      var t := Insert(x, s[1..]);
      forall k | 0 <= k < |t|
        ensures s[0].score >= t[k].score
      {
        InsertMember(x, s[1..], t[k]);
      }
    }
  }

  /** The sorted pairs come out in non-increasing score order. */
  lemma {:induction false} SortNonIncreasing(s: seq<Scored>)
    ensures NonIncreasing(SortDescending(s))
  {
    if |s| > 0 {
      SortNonIncreasing(s[1..]);
      InsertNonIncreasing(s[0], SortDescending(s[1..]));
    }
  }

  lemma {:induction false} InsertRanked(x: Scored, s: seq<Scored>)
    requires Ranked(s)
    requires forall k :: 0 <= k < |s| ==> x.index < s[k].index
    ensures Ranked(Insert(x, s))
  {
    if |s| == 0 || x.score >= s[0].score {
      var r := [x] + s;
      forall i, j | 0 <= i < j < |r|
        ensures Before(r[i], r[j])
      {
        if i > 0 {
          assert r[i] == s[i - 1] && r[j] == s[j - 1];
        } else if j > 1 {
          assert Before(s[0], s[j - 1]);
        }
      }
    } else {
      InsertRanked(x, s[1..]);
      var t := Insert(x, s[1..]);
      var r := [s[0]] + t;
      forall i, j | 0 <= i < j < |r|
        ensures Before(r[i], r[j])
      {
        if i == 0 {
          InsertMember(x, s[1..], t[j - 1]);
        } else {
          assert r[i] == t[i - 1] && r[j] == t[j - 1];
        }
      }
    }
  }

  /**
   * Sorting pairs emitted in index order yields the stable descending ranking:
   * higher scores first, equal scores by lower index.
   */
  lemma {:induction false} SortRanked(s: seq<Scored>)
    requires IncreasingIndices(s)
    ensures Ranked(SortDescending(s))
  {
    if |s| > 0 {
      SortRanked(s[1..]);
      var t := SortDescending(s[1..]);
      forall k | 0 <= k < |t|
        ensures s[0].index < t[k].index
      {
        SortMember(s[1..], t[k]);
      }
      InsertRanked(s[0], t);
    }
  }

  lemma {:induction false} WithScoreAppend(a: seq<Scored>, b: seq<Scored>, v: real)
    ensures WithScore(a + b, v) == WithScore(a, v) + WithScore(b, v)
  {
    if |a| > 0 {
      assert (a + b)[1..] == a[1..] + b;
      WithScoreAppend(a[1..], b, v);
    } else {
      assert a + b == b;
    }
  }

  lemma {:induction false} InsertWithScore(x: Scored, s: seq<Scored>, v: real)
    ensures WithScore(Insert(x, s), v) == WithScore([x], v) + WithScore(s, v)
  {
    if |s| == 0 || x.score >= s[0].score {
      WithScoreAppend([x], s, v);
    } else {
      var t := Insert(x, s[1..]);
      assert Insert(x, s) == [s[0]] + t;
      InsertWithScore(x, s[1..], v);
      WithScoreAppend([s[0]], t, v);
      assert s == [s[0]] + s[1..];
      WithScoreAppend([s[0]], s[1..], v);
    }
  }

  /**
   * Stability: for every score value, the pairs carrying it leave the sort in
   * the order they entered it.
   */
  lemma {:induction false} SortStable(s: seq<Scored>, v: real)
    ensures WithScore(SortDescending(s), v) == WithScore(s, v)
  {
    if |s| > 0 {
      SortStable(s[1..], v);
      InsertWithScore(s[0], SortDescending(s[1..]), v);
    }
  }

  // ---------------------------------------------------------------------------
  // The top-k selection

  /** Every sorted pair is `(keys[i], i)` for some stored entry `i`. */
  lemma SortedEntries(keys: seq<real>)
    ensures var s := SortDescending(Enumerate(keys));
      |s| == |keys| &&
      forall p :: 0 <= p < |s| ==> s[p].index < |keys| && s[p].score == keys[s[p].index]
  {
    var e := Enumerate(keys);
    var s := SortDescending(e);
    SortPermutes(e);
    assert |s| == |multiset(s)| == |multiset(e)| == |e|;
    forall p | 0 <= p < |s|
      ensures s[p].index < |keys| && s[p].score == keys[s[p].index]
    {
      SortMember(e, s[p]);
    }
  }

  /** The sort ranks the enumerated scores and keeps every entry exactly once. */
  lemma RankedEntries(keys: seq<real>)
    ensures var s := SortDescending(Enumerate(keys));
      Ranked(s) &&
      forall j :: 0 <= j < |keys| ==> Scored(keys[j], j) in s
  {
    var e := Enumerate(keys);
    SortRanked(e);
    forall j | 0 <= j < |keys|
      ensures Scored(keys[j], j) in SortDescending(e)
    {
      SortPermutes(e);
      assert e[j] in multiset(e);
    }
  }

  /** `k >= 0` keeps `min(k, n)` entries; a negative `k` drops the last `-k`. */
  lemma TopIndicesLength(keys: seq<real>, k: int)
    ensures 0 <= k ==> |TopIndices(keys, k)| == if k <= |keys| then k else |keys|
    ensures k < 0 ==> |TopIndices(keys, k)| == if -k <= |keys| then |keys| + k else 0
  {
    SortedEntries(keys);
  }

  /**
   * The result is ordered by non-increasing score, equal scores by lower
   * insertion index; in particular it holds distinct stored entries.
   */
  lemma TopIndicesOrdered(keys: seq<real>, k: int)
    ensures var r := TopIndices(keys, k);
      (forall p :: 0 <= p < |r| ==> r[p] < |keys|) &&
      (forall p, q :: 0 <= p < q < |r| ==> Outranks(keys, r[p], r[q]) && r[p] != r[q])
  {
    SortedEntries(keys);
    RankedEntries(keys);
    var s := SortDescending(Enumerate(keys));
    var r := TopIndices(keys, k);
    forall p, q | 0 <= p < q < |r|
      ensures Outranks(keys, r[p], r[q]) && r[p] != r[q]
    {
      assert r[p] == s[p].index && r[q] == s[q].index;
      assert Before(s[p], s[q]);
    }
  }

  lemma SelectionAt(keys: seq<real>, k: int, p: nat, j: nat)
    requires p < |TopIndices(keys, k)| && j < |keys| && j !in TopIndices(keys, k)
    ensures TopIndices(keys, k)[p] < |keys|
    ensures Outranks(keys, TopIndices(keys, k)[p], j)
  {
    SortedEntries(keys);
    RankedEntries(keys);
    var s := SortDescending(Enumerate(keys));
    var r := TopIndices(keys, k);
    var q :| 0 <= q < |s| && s[q] == Scored(keys[j], j);
    assert forall i :: 0 <= i < |r| ==> r[i] == s[i].index;
    assert p < q;
    assert Before(s[p], s[q]);
  }

  /** Top-k selection: every stored entry left out is outranked by every entry kept. */
  lemma TopIndicesSelection(keys: seq<real>, k: int)
    ensures var r := TopIndices(keys, k);
      forall p, j :: 0 <= p < |r| && 0 <= j < |keys| && j !in r ==>
        r[p] < |keys| && Outranks(keys, r[p], j)
  {
    var r := TopIndices(keys, k);
    forall p, j | 0 <= p < |r| && 0 <= j < |keys| && j !in r
      ensures r[p] < |keys| && Outranks(keys, r[p], j)
    {
      SelectionAt(keys, k, p, j);
    }
  }

  /** A bound at least the number of entries returns every stored entry. */
  lemma TopIndicesComplete(keys: seq<real>, k: int)
    requires |keys| <= k
    ensures forall j :: 0 <= j < |keys| ==> j in TopIndices(keys, k)
  {
    SortedEntries(keys);
    RankedEntries(keys);
    var s := SortDescending(Enumerate(keys));
    var r := TopIndices(keys, k);
    forall j | 0 <= j < |keys|
      ensures j in r
    {
      var q :| 0 <= q < |s| && s[q] == Scored(keys[j], j);
      assert r[q] == j;
    }
  }
}

=== FILE: scenarios.dfy ===
/**
 * Concrete scenarios: the tie-breaking example of the retriever's ranking,
 * and the suffix dispatch of single files and of directory entries.
 */
module Scenarios {
  import opened Outcomes
  import opened Documents
  import opened Ranking
  import opened Paths
  import opened Ingest

  lemma SortCons(x: Scored, s: seq<Scored>)
    ensures SortDescending([x] + s) == Insert(x, SortDescending(s))
  {
    assert ([x] + s)[0] == x && ([x] + s)[1..] == s;
  }

  /** The stable sort of the three scored entries of the tie example. */
  lemma TieSorted(a: Scored, b: Scored, c: Scored)
    requires a.score == c.score && b.score < c.score
    ensures SortDescending([a, b, c]) == [a, c, b]
  {
    SortCons(c, []);
    assert SortDescending([]) == [];
    assert [c] + [] == [c];
    SortCons(b, [c]);
    assert [b] + [c] == [b, c];
    assert Insert(b, [c]) == [c] + Insert(b, []) == [c, b];
    SortCons(a, [b, c]);
    assert [a] + [b, c] == [a, b, c];
    assert Insert(a, [c, b]) == [a, c, b];
  }

  /** The top two of scores 0.9, 0.4, 0.9, stated over an arbitrary list holding them. */
  lemma TieTopTwo(keys: seq<real>)
    requires |keys| == 3 && keys[0] == 0.9 && keys[1] == 0.4 && keys[2] == 0.9
    ensures TopIndices(keys, 2) == [0, 2]
  {
    var a, b, c := Scored(0.9, 0), Scored(0.4, 1), Scored(0.9, 2);
    var e := Enumerate(keys);
    assert e == [a, b, c];
    TieSorted(a, b, c);
    var top := SliceTo(SortDescending(e), 2);
    assert top == [a, c];
  }

  /**
   * Scores 0.9, 0.4, 0.9 at insertion positions 0, 1, 2 with `k = 2`: the two
   * 0.9 entries are kept, position 0 before position 2.
   */
  lemma TieBrokenByInsertionOrder()
    ensures TopIndices([0.9, 0.4, 0.9], 2) == [0, 2]
  {
    TieTopTwo([0.9, 0.4, 0.9]);
  }

  lemma LowerSuffixes()
    ensures Lower(".gz") == ".gz"
    ensures Lower(".PDF") == PDF_SUFFIX
    ensures Lower(".Text") == TEXT_SUFFIXES[1]
  {
  }

  /** The literal facts the dispatch scenarios need about their file names. */
  lemma ScenarioNames()
    ensures '/' !in "REPORT.PDF" && EndsWith("REPORT.PDF", ".PDF")
    ensures '/' !in "notes.Text" && EndsWith("notes.Text", ".Text")
    ensures '/' !in "archive.tar.gz" && EndsWith("archive.tar.gz", ".gz")
    ensures '.' !in ".PDF"[1..] && '.' !in ".Text"[1..] && '.' !in ".gz"[1..]
  {
    assert "REPORT.PDF"[6..] == ".PDF";
    assert "notes.Text"[5..] == ".Text";
    assert "archive.tar.gz"[11..] == ".gz";
  }

  /** The suffix is lower-cased before dispatch: `REPORT.PDF` goes to the PDF loader. */
  lemma UpperCasePdfDispatch(dir: string, loaders: Loaders)
    ensures var p := Join(dir, "REPORT.PDF");
      LoadFile(p, loaders) == loaders.pdf(p)
  {
    ScenarioNames();
    FileSuffixOfJoin(dir, "REPORT.PDF", ".PDF");
    LowerSuffixes();
  }

  /** `.text` is one of the text suffixes, in any case. */
  lemma TextSuffixDispatch(dir: string, loaders: Loaders)
    ensures var p := Join(dir, "notes.Text");
      LoadFile(p, loaders) == loaders.text(p)
  {
    ScenarioNames();
    FileSuffixOfJoin(dir, "notes.Text", ".Text");
    LowerSuffixes();
  }

  /** Only the last suffix counts: `archive.tar.gz` is rejected as `.gz`. */
  lemma LastSuffixRejected(dir: string, loaders: Loaders)
    ensures var p := Join(dir, "archive.tar.gz");
      LoadFile(p, loaders) == Err(UnsupportedFileType(".gz"))
  {
    ScenarioNames();
    FileSuffixOfJoin(dir, "archive.tar.gz", ".gz");
    LowerSuffixes();
    assert ".gz" != PDF_SUFFIX && ".gz" !in TEXT_SUFFIXES;
  }

  lemma MatchingUnfold(dir: string, names: seq<string>, ext: string)
    requires |names| > 0
    ensures Matching(dir, names, ext) == Kept(dir, names[0], ext) + Matching(dir, names[1..], ext)
  {
  }

  lemma MatchingFive(dir: string, a: string, b: string, c: string, d: string, e: string, ext: string)
    ensures Matching(dir, [a, b, c, d, e], ext) ==
      Kept(dir, a, ext) + (Kept(dir, b, ext) + (Kept(dir, c, ext) + (Kept(dir, d, ext) + Kept(dir, e, ext))))
  {
    var s0 := [a, b, c, d, e];
    var s1 := s0[1..];
    var s2 := s1[1..];
    var s3 := s2[1..];
    var s4 := s3[1..];
    assert s1[0] == b && s2[0] == c && s3[0] == d && s4 == [e];
    MatchingUnfold(dir, s0, ext);
    MatchingUnfold(dir, s1, ext);
    MatchingUnfold(dir, s2, ext);
    MatchingUnfold(dir, s3, ext);
    MatchingUnfold(dir, s4, ext);
    assert s4[1..] == [];
    var m4 := Kept(dir, e, ext);
    assert Matching(dir, s4, ext) == m4;
    var m3 := Kept(dir, d, ext) + m4;
    assert Matching(dir, s3, ext) == m3;
    var m2 := Kept(dir, c, ext) + m3;
    assert Matching(dir, s2, ext) == m2;
    var m1 := Kept(dir, b, ext) + m2;
    assert Matching(dir, s1, ext) == m1;
    assert Matching(dir, s0, ext) == Kept(dir, a, ext) + m1;
  }

  lemma EndingsOfB()
    ensures EndsWith("b.md", ".md") && !EndsWith("b.md", ".txt") && !EndsWith("b.md", ".pdf")
  {
    assert "b.md"[1..] == ".md";
    assert "b.md"[3] == 'd';
  }

  lemma EndingsOfA()
    ensures EndsWith("a.txt", ".txt") && !EndsWith("a.txt", ".md") && !EndsWith("a.txt", ".pdf")
  {
    assert "a.txt"[1..] == ".txt";
    assert "a.txt"[4] == 't';
  }

  lemma EndingsOfC()
    ensures !EndsWith("c.text", ".md") && !EndsWith("c.text", ".txt") && !EndsWith("c.text", ".pdf")
  {
    assert "c.text"[5] == 't' && "c.text"[3] == 'e';
  }

  lemma EndingsOfD()
    ensures !EndsWith("D.PDF", ".md") && !EndsWith("D.PDF", ".txt") && !EndsWith("D.PDF", ".pdf")
  {
    assert "D.PDF"[4] == 'F';
  }

  lemma EndingsOfE()
    ensures EndsWith("e.pdf", ".pdf") && !EndsWith("e.pdf", ".md") && !EndsWith("e.pdf", ".txt")
  {
    assert "e.pdf"[1..] == ".pdf";
    assert "e.pdf"[4] == 'f';
  }

  /**
   * A directory listed as `b.md, a.txt, c.text, D.PDF, e.pdf` is visited
   * pattern by pattern: `e.pdf`, then `a.txt`, then `b.md`; `c.text` and the
   * upper-case `D.PDF` match no pattern.
   */
  lemma DirectoryVisitOrder(dir: string)
    ensures Candidates(dir, ["b.md", "a.txt", "c.text", "D.PDF", "e.pdf"]) ==
      [Join(dir, "e.pdf"), Join(dir, "a.txt"), Join(dir, "b.md")]
  {
    EndingsOfA();
    EndingsOfB();
    EndingsOfC();
    EndingsOfD();
    EndingsOfE();
    MatchingFive(dir, "b.md", "a.txt", "c.text", "D.PDF", "e.pdf", ".pdf");
    MatchingFive(dir, "b.md", "a.txt", "c.text", "D.PDF", "e.pdf", ".txt");
    MatchingFive(dir, "b.md", "a.txt", "c.text", "D.PDF", "e.pdf", ".md");
  }
}

=== FILE: vectorstore.dfy ===
/**
 * SimpleVectorStore: two parallel append-only lists, `_docs` and `_vectors`,
 * the retriever built by `as_retriever`, and the module-level singleton.
 *
 * The embedding model is a pair of collaborator functions passed to each
 * operation, and cosine similarity is an abstract `score` function.
 */
module VectorStore {
  import opened Outcomes
  import opened Documents
  import opened Ranking

  type Vector = seq<real>

  /** `embed_documents`: one batch call for all texts; it may raise. */
  type EmbedDocuments = seq<string> -> Result<seq<Vector>>

  /** `embed_query`: one vector for the query; it may raise. */
  type EmbedQuery = string -> Result<Vector>

  /** Similarity of a query vector to a stored vector (cosine in the source). */
  type Similarity = (Vector, Vector) -> real

  /** The two lists of a SimpleVectorStore. */
  datatype Store = Store(docs: seq<Document>, vectors: seq<Vector>)

  const Empty: Store := Store([], [])

  /** The invariant the two lists keep as long as the embedder answers one vector per text. */
  predicate Parallel(s: Store) {
    |s.docs| == |s.vectors|
  }

  /** Append-only growth: each list of `s` is a prefix of the matching list of `t`. */
  predicate Extends(s: Store, t: Store) {
    s.docs <= t.docs && s.vectors <= t.vectors
  }

  /** The embedder keeps its promise of one vector per text for `texts`. */
  predicate OneVectorPerText(embed: EmbedDocuments, texts: seq<string>) {
    embed(texts).Ok? ==> |embed(texts).value| == |texts|
  }

  /**
   * `add_documents`: an empty batch returns before the embedder is called;
   * otherwise both lists are extended only after the embedder returned.
   * The store after the call is returned together with the outcome.
   */
  function AddDocuments(s: Store, docs: seq<Document>, embed: EmbedDocuments): (r: (Store, Outcome))
    ensures Extends(s, r.0)
    ensures |docs| == 0 ==> r == (s, Pass)
    ensures r.1.Fail? <==> |docs| > 0 && embed(Contents(docs)).Err?
    ensures r.1.Fail? ==> r.0 == s
    ensures r.1.Pass? ==> r.0.docs == s.docs + docs
    ensures r.1.Pass? && |docs| > 0 ==> r.0.vectors == s.vectors + embed(Contents(docs)).value
    ensures Parallel(s) && OneVectorPerText(embed, Contents(docs)) ==> Parallel(r.0)
  {
    if |docs| == 0 then (s, Pass)
    else
      match embed(Contents(docs))
      case Err(e) => (s, Fail(e))
      case Ok(vectors) => (Store(s.docs + docs, s.vectors + vectors), Pass)
  }

  /** The scoring loop: the similarity of every stored vector to `q`, in insertion order. */
  function Scores(q: Vector, vectors: seq<Vector>, score: Similarity): (keys: seq<real>)
    ensures |keys| == |vectors|
    ensures forall i :: 0 <= i < |vectors| ==> keys[i] == score(q, vectors[i])
  {
    seq(|vectors|, i requires 0 <= i < |vectors| => score(q, vectors[i]))
  }

  /**
   * The `_retrieve` closure: an empty `_docs` answers `[]` before the query is
   * embedded; otherwise every stored vector is scored, the pairs are sorted
   * stably by descending score, `[:k]` is kept and each kept index is looked
   * up in `_docs`, which raises if the index is past its end.
   */
  function Retrieve(s: Store, k: int, query: string, embedQuery: EmbedQuery, score: Similarity): (r: Result<seq<Document>>)
    ensures |s.docs| == 0 ==> r == Ok([])
    ensures |s.docs| > 0 && embedQuery(query).Err? ==> r == Err(embedQuery(query).error)
  {
    if |s.docs| == 0 then Ok([])
    else
      var q :- embedQuery(query);
      var top := TopIndices(Scores(q, s.vectors, score), k);
      if forall p :: 0 <= p < |top| ==> top[p] < |s.docs| then
        Ok(seq(|top|, p requires 0 <= p < |top| => s.docs[top[p]]))
      else
        Err(IndexOutOfRange)
  }

  /**
   * Retrieval on a store that keeps its invariant never fails once the query
   * is embedded, and returns the documents of the top-k indices in rank order.
   */
  lemma RetrieveRanked(s: Store, k: int, query: string, embedQuery: EmbedQuery, score: Similarity)
    requires Parallel(s) && |s.docs| > 0 && embedQuery(query).Ok?
    ensures var keys := Scores(embedQuery(query).value, s.vectors, score);
      var idx := TopIndices(keys, k);
      var r := Retrieve(s, k, query, embedQuery, score);
      && r.Ok?
      && |r.value| == |idx|
      && (forall p :: 0 <= p < |idx| ==> idx[p] < |s.docs| && r.value[p] == s.docs[idx[p]])
  {
    var keys := Scores(embedQuery(query).value, s.vectors, score);
    TopIndicesOrdered(keys, k);
  }

  /**
   * What the retriever returns for `k >= 0`: `min(k, n)` documents, from
   * distinct entries, in non-increasing score order with ties broken by the
   * lower insertion index, and no entry left out scores above one kept.
   */
  lemma RetrieveTopK(s: Store, k: int, query: string, embedQuery: EmbedQuery, score: Similarity)
    requires Parallel(s) && |s.docs| > 0 && embedQuery(query).Ok? && 0 <= k
    ensures var q := embedQuery(query).value;
      var r := Retrieve(s, k, query, embedQuery, score);
      var idx := TopIndices(Scores(q, s.vectors, score), k);
      && r.Ok?
      && |r.value| == (if k <= |s.docs| then k else |s.docs|)
      && (forall p :: 0 <= p < |idx| ==> idx[p] < |s.docs| && r.value[p] == s.docs[idx[p]])
      && (forall p, p' :: 0 <= p < p' < |idx| ==>
            idx[p] != idx[p'] &&
            (score(q, s.vectors[idx[p]]) > score(q, s.vectors[idx[p']]) ||
             (score(q, s.vectors[idx[p]]) == score(q, s.vectors[idx[p']]) && idx[p] < idx[p'])))
      && (forall p, j :: 0 <= p < |idx| && 0 <= j < |s.docs| && j !in idx ==>
            score(q, s.vectors[j]) <= score(q, s.vectors[idx[p]]))
  {
    var q := embedQuery(query).value;
    var keys := Scores(q, s.vectors, score);
    RetrieveRanked(s, k, query, embedQuery, score);
    TopIndicesLength(keys, k);
    TopIndicesOrdered(keys, k);
    TopIndicesSelection(keys, k);
  }

  /** A negative `k` slices from the end: `[:k]` drops the last `-k` ranked documents. */
  lemma RetrieveNegativeK(s: Store, k: int, query: string, embedQuery: EmbedQuery, score: Similarity)
    requires Parallel(s) && |s.docs| > 0 && embedQuery(query).Ok? && k < 0
    ensures var r := Retrieve(s, k, query, embedQuery, score);
      r.Ok? && |r.value| == (if -k <= |s.docs| then |s.docs| + k else 0)
  {
    var keys := Scores(embedQuery(query).value, s.vectors, score);
    RetrieveRanked(s, k, query, embedQuery, score);
    TopIndicesLength(keys, k);
  }

  /** The module-level `_STORE`: unset until the first `get_vectorstore` call. */
  datatype Slot = Unset | Set(store: Store)

  /** The store a slot stands for; an unset slot stands for the store about to be created. */
  function Current(slot: Slot): Store {
    match slot
    case Unset => Empty
    case Set(s) => s
  }

  /** `get_vectorstore`: creates the empty store on the first call, returns the same one afterwards. */
  function GetVectorstore(slot: Slot): (r: (Slot, Store))
    ensures r.0 == Set(r.1)
    ensures slot.Set? ==> r.1 == slot.store
    ensures slot.Unset? ==> r.1 == Empty
  {
    match slot
    case Unset => (Set(Empty), Empty)
    case Set(s) => (slot, s)
  }

  /** After the first call every further call returns the same store and changes nothing. */
  lemma GetVectorstoreStable(slot: Slot)
    ensures var (slot', s) := GetVectorstore(slot);
      GetVectorstore(slot') == (slot', s)
  {
  }
}
